=== FILE: README.md ===
# Remix jokes: authentication and form handling, in Dafny

This project models the request-decision logic of the Remix "jokes" app:

- the session helpers (`app/utils/session.server.ts`);
- the `/login` action that logs in or registers a user (`app/routes/login.tsx`);
- the `/jokes/new` loader and action that create a joke for the signed-in user (`app/routes/jokes/new.tsx`).

Each handler is a pure function. It takes the request, the store and whatever the
environment would supply, and returns a response together with the store it leaves
behind (`Store.Handled`). A thrown `redirect(...)` is an early `Halt` of a `Guarded`
value. Sessions are plain maps from keys to JSON-like values (`Http.Session`). A
response states what it does to the cookie: nothing, commit a session, or destroy it.
The application/x-www-form-urlencoded serializer that builds the login redirect is
modelled in full, together with its parser. This is the format of sections 5.1 and
5.2 of the WHATWG URL Standard, over UTF-8 and the percent-decoding of section 1.3.
Its round trip is proved, and that is why the login page gets back exactly the path
the user came from. The parser never fails: like the UTF-8 decoder of the WHATWG
Encoding Standard, it reads bytes that are not UTF-8 as U+FFFD, so a search typed by
hand still yields its pairs.

Modules, one per file:

| file | module | models |
|---|---|---|
| `options.dfy` | `Options` | optional values |
| `http.dfy` | `Http` | requests, form data (`FormData.get`), JavaScript string length, sessions, `Set-Cookie` effects, responses |
| `form_urlencoded.dfy` | `FormUrlEncoded` | `URLSearchParams` serialization and parsing, UTF-8, percent-encoding |
| `crypto.dfy` | `Crypto` | bcrypt `hash`/`compare`, as uninterpreted functions |
| `store.dfy` | `Store` | the user and joke tables: unique lookups, creates, and the store invariant |
| `auth.dfy` | `Auth` | `getUserId`, `requireUserId`, `login`, `register`, `createUserSession`, `logout`, `getUser` |
| `login_route.dfy` | `LoginRoute` | `validateUsername`, `validatePassword`, `badRequest`, the login `action` |
| `new_joke_route.dfy` | `NewJokeRoute` | `validateJokeName`, `validdateJokeContent`, `loader`, `action` |
| `journeys.dfy` | `Journeys` | request sequences: sign in and return, register then log in, log out |

Some behaviour of the code, as the model states it:

- `getUserId` and `requireUserId` accept a `userId` only when it is a non-empty string.
  A session committed for an empty id therefore reads back as anonymous.
- `getUser` returns null when no user has the session's id. When the lookup
  throws, the code throws `logout(request)` without awaiting it. The thrown value is
  a pending promise, not a `Response`, so the request ends in a server error and the
  session is not destroyed (see "## Findings").
- The login redirect's query is URL-encoded by `URLSearchParams`, so the target
  path arrives intact for any string of Unicode scalar values. A JavaScript string
  with a lone surrogate would not survive, but a Dafny string cannot hold one.
- Length limits count UTF-16 code units, as JavaScript's `length` does
  (`Http.JsLength`). A character above U+FFFF counts twice, so one emoji and one
  letter make a long enough username.
- `redirectTo` is not checked. A successful login or registration redirects to
  whatever location the form submitted (`LoginRoute.Target`).
- `register` either returns the created user or throws. The action's
  "Something went wrong while registering user." branch (login.tsx:104-109)
  cannot be taken. A failed create is modelled as `ServerError`.

## Model

| member | source | states |
|---|---|---|
| `Http.Field` | app/routes/login.tsx:49-52 | `data.get(name)?.toString()`: nothing exactly when no entry has the name, otherwise the first such entry's text, with a file reading as "[object File]" |
| `Http.JsLength` | app/routes/login.tsx:31 | JavaScript's `length`: between one and two units per character, and equal to the number of characters exactly when none lies above U+FFFF |
| `Http.LookupPrefix` | app/routes/login.tsx:137 | entries after a list that already holds the name do not change what `get` returns |
| `Http.Lookup` | app/routes/login.tsx:49-52 | `data.get(name)` gives the value of the first entry with that name, and gives nothing exactly when no entry has that name |
| `FormUrlEncoded.RoundTrip` | app/utils/session.server.ts:77-78 | for every list of pairs, parsing what `URLSearchParams` serializes gives back the same list |
| `FormUrlEncoded.Serialize` | app/utils/session.server.ts:77-78 | `URLSearchParams.toString()` writes only ASCII, never a bare `?`, and is empty exactly when there are no pairs |
| `FormUrlEncoded.Parse` | app/routes/login.tsx:122 | `new URLSearchParams(search)` never fails, and reads an empty search, or a lone `?`, as no pairs |
| `FormUrlEncoded.ParsePrefix` | app/routes/login.tsx:122 | pairs written by `URLSearchParams` and followed by `&` parse back first, whatever follows them, including bytes that are not UTF-8 |
| `FormUrlEncoded.Utf8Next` | app/routes/login.tsx:122 | one step of the UTF-8 decoder: on a well-formed start the bytes consumed are exactly the UTF-8 encoding of the value returned. On an ill-formed start the value is U+FFFD, an invalid lead byte consumes one byte, and a valid lead consumes itself plus the bytes in bounds after it, never the full count, stopping at the end of input or at the first needed byte that is out of bounds |
| `FormUrlEncoded.Utf8FirstWellFormed` | app/routes/login.tsx:122 | a sequence decodes to a scalar value exactly when its lead byte is valid and every announced continuation byte lies within the decoder's lower and upper boundaries |
| `FormUrlEncoded.PercentFFIsReplacement` | app/routes/login.tsx:137 | the search value `%FF` reads as U+FFFD |
| `FormUrlEncoded.ReplacementExamples` | app/routes/login.tsx:137 | a stray byte, a truncated sequence and an encoded surrogate decode to U+FFFD, one per maximal ill-formed part. The byte that breaks a sequence is read again, and a well-formed sequence decodes to its scalar value |
| `FormUrlEncoded.ParseSearch` | app/routes/login.tsx:122 | a query parses the same with the one leading `?` of `location.search` as without it |
| `FormUrlEncoded.Utf8RoundTrip` | app/utils/session.server.ts:77 | UTF-8 decoding of the UTF-8 encoding of any string gives back that string |
| `FormUrlEncoded.ComponentRoundTrip` | app/utils/session.server.ts:77 | a percent-encoded name or value (space written as `+`) decodes back to the original string |
| `Auth.GetUserId` | app/utils/session.server.ts:60-67 | the result is the session's `userId` exactly when that entry is present, is a string and is non-empty; otherwise it is null |
| `Auth.LoginQuery` | app/utils/session.server.ts:77-78 | the query built for the login redirect parses back to the single pair `redirectTo` = target |
| `Auth.LoginLocation` | app/utils/session.server.ts:77-79 | the location starts with `/login?`, and its search parses back to the single pair `redirectTo` = target |
| `Auth.RequireUserId` | app/utils/session.server.ts:69-82 | with a valid id it returns that same id. Without one it never returns a value. It halts with a redirect, setting no cookie, to `/login?` plus a search whose only pair is `redirectTo` = the given target, or the request path when no target is given |
| `Auth.Login` | app/utils/session.server.ts:10-24 | a returned user is stored, has the submitted username, and its digest matches the password. A null result with an existing username means the password does not match |
| `Auth.LoginExact` | app/utils/session.server.ts:10-24 | in a valid store, `login` succeeds iff some stored user has the username and a digest that the password matches |
| `Auth.Register` | app/utils/session.server.ts:109-117 | succeeds iff the username and the id are both free. It then appends exactly one user whose digest is `hash(password, 10)` and leaves the jokes unchanged |
| `Auth.RegisterThenLogin` | app/utils/session.server.ts:109-117 | after a registration, `login` with the same password returns the new user, and the store stays valid |
| `Auth.CreateUserSession` | app/utils/session.server.ts:44-54 | redirects to `redirectTo` and commits a session holding only `userId`. The next request's `getUserId` reads that id back, or null if the id is empty |
| `Auth.Logout` | app/utils/session.server.ts:99-107 | redirects to `/login` and destroys the session, so no later request reads a user id |
| `Auth.GetUser` | app/utils/session.server.ts:84-97 | null without a valid id. A lookup that throws halts with a server error, because the unawaited `logout(request)` throws a promise. Otherwise the result is the stored user with the session's id, or null when no user has that id |
| `Auth.GetUserIntended` | app/utils/session.server.ts:91-96 | as intended: it halts exactly when a signed-in request's lookup throws, and then with the logout redirect. Otherwise it agrees with `getUser` |
| `Auth.GetUserThrowsPromise` | app/utils/session.server.ts:95 | on a failed lookup the code as written gives a server error and the client stays signed in. The intended version redirects to `/login`, and the next request is anonymous |
| `Store.FindUser` | app/utils/session.server.ts:11-15 | the first user the unique `where` clause selects; nothing exactly when no stored user matches |
| `Store.FindUserUnique` | app/utils/session.server.ts:92 | in a valid store, a lookup on a unique column returns the one user with that value |
| `Store.CreateUser` | app/utils/session.server.ts:112-114 | creating a user succeeds iff its username and id are unused. It appends only that user |
| `Store.CreateJoke` | app/routes/jokes/new.tsx:76-78 | creating a joke succeeds iff its id is unused and its jokester is a stored user. It appends only that joke |
| `Store.CreateUserValid` | app/utils/session.server.ts:112-114 | a successful user create keeps usernames and ids unique and keeps every jokester a stored user |
| `Store.CreateJokeValid` | app/routes/jokes/new.tsx:76-78 | a successful joke create keeps joke ids unique and keeps every jokester a stored user |
| `LoginRoute.ValidateUsername` | app/routes/login.tsx:30-34 | an error iff the username is shorter than 3 UTF-16 code units, with the source's message |
| `LoginRoute.ValidatePassword` | app/routes/login.tsx:36-40 | an error iff the password is shorter than 6 UTF-16 code units, with the source's message |
| `LoginRoute.LengthsInCodeUnits` | app/routes/login.tsx:31-37 | an emoji and a letter make a long enough username, and three emoji a long enough password, while "ab" and "abcde" are too short |
| `Http.BadRequest` | app/routes/login.tsx:42-44 | a JSON response with status 400 carrying the given data (the same helper is repeated at app/routes/jokes/new.tsx:28) |
| `LoginRoute.Target` | app/routes/login.tsx:52 | the submitted `redirectTo` when it is present and non-empty, otherwise `/jokes`; never empty |
| `LoginRoute.Action` | app/routes/login.tsx:46-119 | the decision table, in order. A missing field gives 400 with only the form error. A short field gives 400 with both field errors and the echoed fields. Then login (wrong credentials give 400, right ones open a session), register (a taken name gives 400, a fresh one adds the user and opens a session), or "Login type invalid" |
| `LoginRoute.RejectedBeforeLookup` | app/routes/login.tsx:54-73 | a submission failing the presence or length checks gets a 400 that does not depend on the store, hasher or login type, and the store is unchanged |
| `LoginRoute.OnlyRegistrationWrites` | app/routes/login.tsx:90-110 | the store changes only through a registration under a free username, by exactly one user with that username and the bcrypt digest of the password |
| `LoginRoute.SessionOnlyForCredentials` | app/routes/login.tsx:75-111 | every redirect goes to the submitted target. It commits `{userId}` for a stored user who has the submitted username and a digest that the submitted password matches |
| `LoginRoute.ActionKeepsStoreValid` | app/routes/login.tsx:90-110 | the action keeps a valid store valid, whatever the request |
| `NewJokeRoute.ValidateJokeName` | app/routes/jokes/new.tsx:30-34 | an error iff the name is shorter than 2 UTF-16 code units, with the source's message |
| `NewJokeRoute.ValidateJokeContent` | app/routes/jokes/new.tsx:36-40 | an error iff the content is shorter than 10 UTF-16 code units, with the source's message |
| `NewJokeRoute.LengthsInCodeUnits` | app/routes/jokes/new.tsx:31-37 | one emoji is a long enough name, and five are a long enough joke, while one letter and nine letters are too short |
| `NewJokeRoute.Loader` | app/routes/jokes/new.tsx:42-50 | 401 "Unauthorized" iff `getUserId` is null; otherwise the empty object |
| `NewJokeRoute.Action` | app/routes/jokes/new.tsx:52-81 | without a session user, the login redirect. A missing field gives 400 "Form not submitted correctly.". A short field gives 400 with field errors and fields, and the store is unchanged. Otherwise exactly one joke owned by the session user is added, with a redirect to `/jokes/<id>` |
| `NewJokeRoute.AnonymousCannotPost` | app/routes/jokes/new.tsx:53 | without a session user the outcome is the same for every form: no joke, and a redirect to `/login` whose search parses to the single pair `redirectTo` = the request path |
| `NewJokeRoute.OnlyOwnedJokeWrites` | app/routes/jokes/new.tsx:76-80 | the store changes only by one joke with the submitted name and content whose `jokesterId` is the session user, followed by a redirect to it |
| `NewJokeRoute.ActionKeepsStoreValid` | app/routes/jokes/new.tsx:76-78 | the action keeps a valid store valid, whatever the request |
| `NewJokeRoute.LoaderAgreesWithAction` | app/routes/jokes/new.tsx:42-53 | the loader answers 401 exactly for the requests the action's `requireUserId` turns away |
| `Journeys.ReadSignInForm` | app/routes/login.tsx:49-52 | the action reads each field of the login page's form as submitted |
| `Journeys.LoginPost` | app/routes/login.tsx:76-88 | a login post with acceptable fields that `login` accepts opens that user's session and redirects to the target, or to `/jokes` |
| `Journeys.RegisterPost` | app/routes/login.tsx:90-110 | a register post with acceptable lengths and a free username and id adds the user and opens its session. It redirects to the submitted `redirectTo`, or to `/jokes` when that is empty |
| `Journeys.HiddenRedirectTo` | app/routes/login.tsx:134-138 | for any search, the hidden input holds the first `redirectTo` that the search parses to (bytes that are not UTF-8 read as U+FFFD), or is empty when there is none |
| `Journeys.HiddenRedirectToIgnoresRest` | app/routes/login.tsx:134-138 | whatever follows pairs written by `URLSearchParams`, even malformed percent-encoding, the hidden input holds the first `redirectTo` among those pairs |
| `Journeys.HiddenRedirectToOfSerialized` | app/routes/login.tsx:134-138 | for a search that `URLSearchParams` wrote, the hidden input holds the first `redirectTo` it was given, or is empty |
| `Journeys.GateRemembersPath` | app/utils/session.server.ts:69-79 | the login page reached from an anonymous joke post puts the post's path in its hidden `redirectTo` input |
| `Journeys.SignInReturnsToPage` | app/routes/login.tsx:134-138 | signing in from that page with valid credentials returns to the original path (or `/jokes` if it was empty) with a session under which `requireUserId` yields the user's id |
| `Journeys.RegisterThenLogIn` | app/routes/login.tsx:90-110 | registering and then logging in with the same credentials adds one user and opens a session whose `getUserId` is the new id |
| `Journeys.RegisteredPasswordOnly` | app/utils/session.server.ts:10-24 | after registering ("alice", "secret1"), `login` accepts "secret1" and refuses any password bcrypt does not match |
| `Journeys.LogoutEndsSession` | app/utils/session.server.ts:99-107 | after logout the next request is anonymous: the loader answers 401, and the action creates nothing and redirects, without touching the session, to `/login?` with a search whose only pair is `redirectTo` = the requested path |

## Left out

- React components and markup are not modelled: `Login`, `JokesNewRoute`, `app/root.tsx`, links and meta. The one exception is the login page's hidden `redirectTo` input, used by `Journeys.SignInReturnsToPage`. The optimistic preview in `JokesNewRoute` (new.tsx:91-97) shows the preview when both validators return an error, which is the reverse of the intended check. It is rendering only, so it is not modelled.
- The joke listing (`app/routes/jokes.tsx`), the random joke (`app/routes/jokes/index.tsx`) and the joke page with its delete action (`app/routes/jokes/$jokeId.tsx`) are database reads and UI outside this core.
- The cookie codec is not modelled. Signing, the `RJ_session` attributes and `Max-Age` belong to `createCookieSessionStorage`, a library outside this model. A request carries its decoded session. A tampered or missing cookie is simply an empty map.
- The `SESSION_SECRET` start-up check is left out because it is process configuration.
- bcrypt is uninterpreted (`Crypto.Hasher`). Its random salt is a parameter, and timing is not modelled.
- The database client is reduced to `Store`. Generated ids are parameters. `createdAt` is not modelled, because only the listing orders by it.
- Auth.GetUser: the `lookupFails` flag says whether the database lookup throws. When a real client throws is not modelled.
- Auth.GetUser: a thrown value that is not a `Response` is taken to end the request as a server error, which is how Remix treats an exception that escapes a loader. The error boundary it renders is UI.
- FormUrlEncoded.Parse: only an empty search is characterised on its own. Everything else it promises is stated through the round trip with `Serialize`.
- Journeys.LoginPageSearch: the login location is split after its fixed `/login` path rather than by the URL Standard's URL parser. The request path is given directly, not parsed out of `request.url`.
- Thrown and returned responses are not told apart. Remix follows a thrown redirect in the same way as a returned one. A thrown 401 renders the catch boundary, which is UI.
- async/await and the HTTP `Request`/`Response` objects are not modelled: every step is a pure function of its inputs.

## Findings

| source | as written | input that shows it | evidently intended | confidence | as-written member | corrected member |
|---|---|---|---|---|---|---|
| app/utils/session.server.ts:95 | `throw logout(request)` throws the promise that the async `logout` returns, not the redirect | a signed-in request whose `db.user.findUnique` throws | `throw await logout(request)`: the logout redirect, which destroys the session | medium, not executed | `Auth.GetUser` (with `Auth.GetUserThrowsPromise`) | `Auth.GetUserIntended` |

=== FILE: auth.dfy ===
/**
 * The session and authentication helpers of `app/utils/session.server.ts`:
 * reading the signed-in user's id from the session, requiring it (with a
 * redirect to the login page otherwise), checking and registering
 * credentials, and issuing and destroying the session cookie.
 */
module Auth {
  import opened Options
  import opened Http
  import opened Store
  import opened Crypto
  import FormUrlEncoded

  const UserIdKey := "userId"
  const LoginPath := "/login"
  /** The work factor `register` passes to bcrypt. */
  const BcryptCost: nat := 10

  /**
   * `getUserId`: the session's `userId` when it is present, a string and
   * not empty; nothing otherwise.
   */
  function GetUserId(req: Request): (r: Option<string>)
    ensures r.Some? <==> UserIdKey in req.session && req.session[UserIdKey].Str? && req.session[UserIdKey].str != ""
    ensures r.Some? ==> req.session[UserIdKey] == Str(r.value)
  {
    if UserIdKey in req.session then
      match req.session[UserIdKey]
      case Str(id) => if id == "" then None else Some(id)
      case _ => None
    else None
  }

  /** A request presenting `session` (the rest of the request does not matter to the session helpers). */
  function WithSession(req: Request, session: Session): Request {
    req.(session := session)
  }

  /**
   * The query string of the login redirect: `redirectTo` set to `target`,
   * serialized by `URLSearchParams`.
   */
  function LoginQuery(target: string): (q: string)
    ensures FormUrlEncoded.Parse(q) == [("redirectTo", target)]
    ensures FormUrlEncoded.Parse("?" + q) == [("redirectTo", target)]
  {
    var q := FormUrlEncoded.Serialize([("redirectTo", target)]);
    FormUrlEncoded.RoundTrip([("redirectTo", target)]);
    FormUrlEncoded.ParseSearch(q);
    q
  }

  /** `/login?` followed by a query `q`: the path, then the search `?q`. */
  lemma LoginLocationParts(q: string)
    ensures |LoginPath + "?" + q| > |LoginPath|
    ensures (LoginPath + "?" + q)[..|LoginPath| + 1] == LoginPath + "?"
    ensures (LoginPath + "?" + q)[|LoginPath|..] == "?" + q
  {
    var prefix := LoginPath + "?";
    assert (prefix + q)[..|prefix|] == prefix;
    assert (prefix + q)[|LoginPath|..] == prefix[|LoginPath|..] + q;
  }

  /** `/login?` followed by the login query for `target`. */
  function LoginLocation(target: string): (location: string)
    ensures |location| > |LoginPath| && location[..|LoginPath| + 1] == LoginPath + "?"
    ensures FormUrlEncoded.Parse(location[|LoginPath|..]) == [("redirectTo", target)]
  {
    var q := LoginQuery(target);
    LoginLocationParts(q);
    LoginPath + "?" + q
  }

  /**
   * `requireUserId(request, redirectTo)`: the session's user id, or, when
   * there is none, the early redirect to `/login?redirectTo=<target>` where
   * `target` is the given `redirectTo` and defaults to the request's path:
   * the location's search (from the `?` on) reads back as exactly that one
   * pair.
   */
  function RequireUserId<D>(req: Request, redirectTo: Option<string>): (r: Guarded<string, D>)
    ensures GetUserId(req).Some? ==> r == Proceed(GetUserId(req).value)
    ensures GetUserId(req).None? ==>
              && r.Halt? && r.response.Redirect? && r.response.cookie.Keep?
              && |r.response.location| > |LoginPath| && r.response.location[..|LoginPath| + 1] == LoginPath + "?"
              && FormUrlEncoded.Parse(r.response.location[|LoginPath|..]) == [("redirectTo", redirectTo.GetOr(req.path))]
  {
    var session := req.session;
    if UserIdKey in session && session[UserIdKey].Str? && session[UserIdKey].str != "" then
      Proceed(session[UserIdKey].str)
    else
      Halt(Redirect(LoginLocation(redirectTo.GetOr(req.path)), Keep))
  }

  /**
   * `login`: the stored user with that username when the password matches
   * its digest; nothing when there is no such user or the password does not
   * match.
   */
  function Login(db: Db, hasher: Hasher, username: string, password: string): (r: Option<User>)
    ensures r.Some? ==> r.value in db.users && r.value.username == username
                        && hasher.compare(password, r.value.passwordHash)
    ensures r.None? && FindUser(db.users, ByUsername(username)).Some? ==>
              !hasher.compare(password, FindUser(db.users, ByUsername(username)).value.passwordHash)
  {
    match FindUser(db.users, ByUsername(username))
    case None => None
    case Some(user) => if hasher.compare(password, user.passwordHash) then Some(user) else None
  }

  /**
   * In a valid store `login` succeeds exactly when some stored user has
   * that username and a digest the password matches.
   */
  lemma LoginExact(db: Db, hasher: Hasher, username: string, password: string)
    requires Valid(db)
    ensures Login(db, hasher, username, password).Some?
            <==> exists u :: u in db.users && u.username == username && hasher.compare(password, u.passwordHash)
  {
    if u :| u in db.users && u.username == username && hasher.compare(password, u.passwordHash) {
      FindUserUnique(db, ByUsername(username), u);
    }
  }

  /**
   * `register`: creates one user whose digest is bcrypt's hash of the
   * password at cost 10, never the password itself, and returns it with the
   * new store. `id` and `salt` are what the database and bcrypt would draw.
   * Fails, as the database would, when the username or id is taken.
   */
  function Register(db: Db, hasher: Hasher, username: string, password: string, id: string, salt: string)
    : (r: Option<(User, Db)>)
    ensures r.Some? <==> FindUser(db.users, ByUsername(username)).None? && FindUser(db.users, ById(id)).None?
    ensures r.Some? ==>
              && r.value.0 == User(id, username, hasher.hash(password, BcryptCost, salt))
              && r.value.1 == db.(users := db.users + [r.value.0])
  {
    var user := User(id, username, hasher.hash(password, BcryptCost, salt));
    match CreateUser(db, user)
    case None => None
    case Some(db') => Some((user, db'))
  }

  /**
   * A user just registered can log in with the password they registered
   * with, and the store stays valid (given a hasher whose `compare` accepts
   * its own digests).
   */
  lemma RegisterThenLogin(db: Db, hasher: Hasher, username: string, password: string, id: string, salt: string)
    requires Valid(db) && Sound(hasher)
    requires Register(db, hasher, username, password, id, salt).Some?
    ensures var (user, db') := Register(db, hasher, username, password, id, salt).value;
            && Valid(db')
            && Login(db', hasher, username, password) == Some(user)
  {
    var user := User(id, username, hasher.hash(password, BcryptCost, salt));
    CreateUserValid(db, user);
    FindUserAppendNew(db.users, user, ByUsername(username));
  }

  /**
   * `createUserSession`: a redirect to `redirectTo` committing a fresh
   * session that holds only `userId`; the next request then reads that id
   * back (unless the id is empty, which `getUserId` treats as absent).
   */
  function CreateUserSession<D>(userId: string, redirectTo: string): (r: Response<D>)
    ensures r.Redirect? && r.location == redirectTo
    ensures r.cookie.Commit? && r.cookie.session.Keys == {UserIdKey}
    ensures forall req: Request :: GetUserId(WithSession(req, NextSession(req.session, r.cookie)))
                          == if userId == "" then None else Some(userId)
  {
    Redirect(redirectTo, Commit(map[UserIdKey := Str(userId)]))
  }

  /** `logout`: a redirect to `/login` that destroys the session, after which no user id is read. */
  function Logout<D>(req: Request): (r: Response<D>)
    ensures r.Redirect? && r.location == LoginPath && r.cookie == Destroy
    ensures forall next: Request :: GetUserId(WithSession(next, NextSession(req.session, r.cookie))).None?
  {
    Redirect(LoginPath, Destroy)
  }

  /**
   * `getUser` as written: nothing without a session user id; otherwise the
   * stored user with that id, or nothing when there is none. When the lookup
   * itself throws (`lookupFails`), the handler throws `logout(request)`
   * without awaiting it: the thrown value is a pending promise, not a
   * `Response`, so the request ends in a server error and the session
   * cookie is left as it was.
   */
  function GetUser<D>(req: Request, db: Db, lookupFails: bool): (r: Guarded<Option<User>, D>)
    ensures GetUserId(req).None? ==> r == Proceed(None)
    ensures GetUserId(req).Some? && lookupFails ==> r == Halt(ServerError)
    ensures GetUserId(req).Some? && !lookupFails ==> r.Proceed?
    ensures r.Proceed? && r.value.Some? ==> r.value.value in db.users && GetUserId(req) == Some(r.value.value.id)
    ensures r.Proceed? && r.value.None? && GetUserId(req).Some? ==>
              forall u :: u in db.users ==> u.id != GetUserId(req).value
  {
    match GetUserId(req)
    case None => Proceed(None)
    case Some(id) =>
      if lookupFails then Halt(ServerError)
      else Proceed(FindUser(db.users, ById(id)))
  }

  /**
   * `getUser` as evidently intended (`throw await logout(request)`): a
   * failed lookup ends the request with the logout redirect, which destroys
   * the session. Otherwise it agrees with `GetUser`.
   */
  function GetUserIntended<D>(req: Request, db: Db, lookupFails: bool): (r: Guarded<Option<User>, D>)
    ensures r.Halt? <==> GetUserId(req).Some? && lookupFails
    ensures r.Halt? ==> r.response == Logout(req)
    ensures r.Proceed? ==> r == GetUser(req, db, lookupFails)
  {
    if GetUserId(req).Some? && lookupFails then Halt(Logout(req))
    else GetUser(req, db, lookupFails)
  }

  /**
   * The two differ exactly on a failed lookup for a signed-in request: as
   * written the client keeps its session and sees a server error; as
   * intended it is logged out, and its next request is anonymous.
   */
  lemma GetUserThrowsPromise<D>(req: Request, db: Db, next: Request)
    requires GetUserId(req).Some?
    ensures GetUser<D>(req, db, true) == Halt(ServerError)
    ensures GetUserId(next.(session := req.session)).Some?
    ensures var r := GetUserIntended<D>(req, db, true);
            && r.Halt? && r.response.Redirect? && r.response.location == LoginPath
            && GetUserId(WithSession(next, NextSession(req.session, r.response.cookie))).None?
  {
  }
}

=== FILE: crypto.dfy ===
/**
 * bcryptjs, as the session helpers use it: `hash(password, cost)` makes a
 * salted digest and `compare(password, digest)` checks a password against
 * one. Both are left uninterpreted; the random salt `hash` draws is an
 * explicit argument.
 */
module Crypto {

  datatype Hasher = Hasher(
    hash: (string, nat, string) -> string,  // (password, cost, salt) -> digest
    compare: (string, string) -> bool)      // (password, digest) -> matches

  /** A hasher whose `compare` accepts every digest `hash` made of the same password. */
  ghost predicate Sound(h: Hasher) {
    forall password, cost, salt :: h.compare(password, h.hash(password, cost, salt))
  }
}

=== FILE: form_urlencoded.dfy ===
/**
 * The application/x-www-form-urlencoded format as `URLSearchParams` writes
 * and reads it: the serializer of section 5.2 and the parser of section 5.1
 * of the WHATWG URL Standard, over the UTF-8 encoding of the WHATWG Encoding
 * Standard and the percent-decoding of section 1.3 of the URL Standard.
 *
 * `requireUserId` builds its login redirect with this serializer and the
 * login page reads `redirectTo` back with this parser; the round trip
 * `Parse(Serialize(pairs)) == pairs` is what makes the path survive.
 */
module FormUrlEncoded {
  import opened Options
  import opened Http

  type byte = b: int | 0 <= b < 0x100

  const Space: byte := 0x20
  const Percent: byte := 0x25
  const Ampersand: byte := 0x26
  const Plus: byte := 0x2B
  const EqualsSign: byte := 0x3D
  const QuestionMark: byte := 0x3F

  predicate IsAscii(bs: seq<byte>) {
    forall i :: 0 <= i < |bs| ==> bs[i] < 0x80
  }

  // ---------------------------------------------------------------- UTF-8

  /** The UTF-8 encoding of one scalar value. */
  function Utf8Char(c: char): (bs: seq<byte>)
    ensures 1 <= |bs| <= 4
    ensures |bs| == 1 <==> c as int < 0x80
    ensures |bs| == 1 ==> bs[0] == c as int
  {
    var n := c as int;
    if n < 0x80 then [n]
    else if n < 0x800 then [0xC0 + n / 0x40, 0x80 + n % 0x40]
    else if n < 0x1_0000 then [0xE0 + n / 0x1000, 0x80 + n / 0x40 % 0x40, 0x80 + n % 0x40]
    else [0xF0 + n / 0x4_0000, 0x80 + n / 0x1000 % 0x40, 0x80 + n / 0x40 % 0x40, 0x80 + n % 0x40]
  }

  function Utf8Encode(s: string): seq<byte> {
    if |s| == 0 then [] else Utf8Char(s[0]) + Utf8Encode(s[1..])
  }

  predicate IsContinuation(b: byte) {
    0x80 <= b < 0xC0
  }

  /**
   * The scalar value that starts `bs` and the number of bytes it takes, or
   * nothing when `bs` does not start with a well-formed UTF-8 sequence
   * (a stray continuation byte, a truncated sequence, an overlong form, a
   * surrogate or a value above U+10FFFF).
   */
  function Utf8First(bs: seq<byte>): (r: Option<(char, nat)>)
    requires |bs| > 0
    ensures r.Some? ==> 1 <= r.value.1 <= |bs|
  {
    var b0 := bs[0] as int;
    if b0 < 0x80 then Some((b0 as char, 1))
    else if 0xC0 <= b0 < 0xE0 && 2 <= |bs| && IsContinuation(bs[1]) then
      var n := (b0 - 0xC0) * 0x40 + (bs[1] as int - 0x80);
      if 0x80 <= n then Some((n as char, 2)) else None
    else if 0xE0 <= b0 < 0xF0 && 3 <= |bs| && IsContinuation(bs[1]) && IsContinuation(bs[2]) then
      var n := (b0 - 0xE0) * 0x1000 + (bs[1] as int - 0x80) * 0x40 + (bs[2] as int - 0x80);
      if 0x800 <= n && !(0xD800 <= n < 0xE000) then Some((n as char, 3)) else None
    else if 0xF0 <= b0 < 0xF8 && 4 <= |bs| && IsContinuation(bs[1]) && IsContinuation(bs[2]) && IsContinuation(bs[3]) then
      var n := (b0 - 0xF0) * 0x4_0000 + (bs[1] as int - 0x80) * 0x1000 + (bs[2] as int - 0x80) * 0x40 + (bs[3] as int - 0x80);
      if 0x1_0000 <= n < 0x11_0000 then Some((n as char, 4)) else None
    else None
  }

  const Replacement: char := '\U{FFFD}'

  /**
   * The number of continuation bytes a lead byte announces, or nothing for
   * a byte no sequence may start with.
   */
  function Needed(b0: byte): (n: Option<nat>)
    ensures n.Some? ==> n.value <= 3
    ensures n == Some(0) <==> b0 < 0x80
  {
    if b0 < 0x80 then Some(0)
    else if 0xC2 <= b0 <= 0xDF then Some(1)
    else if 0xE0 <= b0 <= 0xEF then Some(2)
    else if 0xF0 <= b0 <= 0xF4 then Some(3)
    else None
  }

  /**
   * Whether `b` may be continuation byte `i` (from 1) of a sequence led by
   * `b0`: the decoder's lower and upper boundaries, which exclude overlong
   * forms, surrogates and values above U+10FFFF.
   */
  predicate InBounds(b0: byte, i: nat, b: byte) {
    if i == 1 && b0 == 0xE0 then 0xA0 <= b <= 0xBF
    else if i == 1 && b0 == 0xED then 0x80 <= b <= 0x9F
    else if i == 1 && b0 == 0xF0 then 0x90 <= b <= 0xBF
    else if i == 1 && b0 == 0xF4 then 0x80 <= b <= 0x8F
    else 0x80 <= b <= 0xBF
  }

  /** How many of the `need` bytes after the lead are in bounds before the first that is not. */
  function InBoundsRun(bs: seq<byte>, need: nat): (k: nat)
    requires |bs| > 0 && need <= 3
    ensures k <= need && k < |bs|
    ensures forall i :: 1 <= i <= k ==> InBounds(bs[0], i, bs[i])
    ensures k < need && k + 1 < |bs| ==> !InBounds(bs[0], k + 1, bs[k + 1])
  {
    if need >= 1 && |bs| > 1 && InBounds(bs[0], 1, bs[1]) then
      if need >= 2 && |bs| > 2 && InBounds(bs[0], 2, bs[2]) then
        if need >= 3 && |bs| > 3 && InBounds(bs[0], 3, bs[3]) then 3 else 2
      else 1
    else 0
  }

  /** Splitting a number at bit 6, 12 or 18 gives back its high and low parts. */
  lemma Split6(hi: int, lo: int)
    requires hi >= 0 && 0 <= lo < 0x40
    ensures (hi * 0x40 + lo) / 0x40 == hi && (hi * 0x40 + lo) % 0x40 == lo
  { }

  lemma Split12(hi: int, lo: int)
    requires hi >= 0 && 0 <= lo < 0x1000
    ensures (hi * 0x1000 + lo) / 0x1000 == hi && (hi * 0x1000 + lo) % 0x1000 == lo
  { }

  lemma Split18(hi: int, lo: int)
    requires hi >= 0 && 0 <= lo < 0x4_0000
    ensures (hi * 0x4_0000 + lo) / 0x4_0000 == hi && (hi * 0x4_0000 + lo) % 0x4_0000 == lo
  { }

  lemma EncodesTwo(bs: seq<byte>)
    requires |bs| >= 2 && 0xC0 <= bs[0] < 0xE0 && IsContinuation(bs[1])
    requires 0x80 <= (bs[0] as int - 0xC0) * 0x40 + (bs[1] as int - 0x80)
    ensures bs[..2] == Utf8Char(((bs[0] as int - 0xC0) * 0x40 + (bs[1] as int - 0x80)) as char)
  {
    Split6(bs[0] as int - 0xC0, bs[1] as int - 0x80);
  }

  lemma EncodesThree(bs: seq<byte>)
    requires |bs| >= 3 && 0xE0 <= bs[0] < 0xF0 && IsContinuation(bs[1]) && IsContinuation(bs[2])
    requires var n := (bs[0] as int - 0xE0) * 0x1000 + (bs[1] as int - 0x80) * 0x40 + (bs[2] as int - 0x80);
             0x800 <= n && !(0xD800 <= n < 0xE000)
    ensures bs[..3] == Utf8Char(((bs[0] as int - 0xE0) * 0x1000 + (bs[1] as int - 0x80) * 0x40 + (bs[2] as int - 0x80)) as char)
  {
    var hi := (bs[0] as int - 0xE0) * 0x40 + (bs[1] as int - 0x80);
    Split6(hi, bs[2] as int - 0x80);
    Split6(bs[0] as int - 0xE0, bs[1] as int - 0x80);
    Split12(bs[0] as int - 0xE0, (bs[1] as int - 0x80) * 0x40 + (bs[2] as int - 0x80));
  }

  lemma EncodesFour(bs: seq<byte>)
    requires |bs| >= 4 && 0xF0 <= bs[0] < 0xF8
    requires IsContinuation(bs[1]) && IsContinuation(bs[2]) && IsContinuation(bs[3])
    requires var n := (bs[0] as int - 0xF0) * 0x4_0000 + (bs[1] as int - 0x80) * 0x1000
                      + (bs[2] as int - 0x80) * 0x40 + (bs[3] as int - 0x80);
             0x1_0000 <= n < 0x11_0000
    ensures bs[..4] == Utf8Char(((bs[0] as int - 0xF0) * 0x4_0000 + (bs[1] as int - 0x80) * 0x1000
                                 + (bs[2] as int - 0x80) * 0x40 + (bs[3] as int - 0x80)) as char)
  {
    var a, b, c, d := bs[0] as int - 0xF0, bs[1] as int - 0x80, bs[2] as int - 0x80, bs[3] as int - 0x80;
    Split6((a * 0x40 + b) * 0x40 + c, d);
    Split6(a * 0x40 + b, c);
    Split12(a * 0x40 + b, c * 0x40 + d);
    Split18(a, b * 0x1000 + c * 0x40 + d);
  }

  /** What `Utf8First` reads is exactly the UTF-8 encoding of the value it returns. */
  lemma Utf8FirstEncodes(bs: seq<byte>)
    requires |bs| > 0 && Utf8First(bs).Some?
    ensures bs[..Utf8First(bs).value.1] == Utf8Char(Utf8First(bs).value.0)
  {
    var b0 := bs[0] as int;
    if b0 < 0x80 {
    } else if 0xC0 <= b0 < 0xE0 {
      EncodesTwo(bs);
    } else if 0xE0 <= b0 < 0xF0 {
      EncodesThree(bs);
    } else {
      EncodesFour(bs);
    }
  }

  /**
   * One step of the UTF-8 decoder: the scalar value that starts `bs` and
   * the bytes it takes. On a well-formed start the bytes read are exactly
   * the encoding of the value. On an ill-formed start the value is U+FFFD
   * for the lead byte and the run of in-bounds bytes after it, stopping at
   * the end of input or at a byte that was needed but is out of bounds
   * (that byte is read again).
   */
  function Utf8Next(bs: seq<byte>): (r: (char, nat))
    requires |bs| > 0
    ensures 1 <= r.1 <= |bs|
    ensures Utf8First(bs).Some? ==> r.1 == |Utf8Char(r.0)| && Utf8Char(r.0) <= bs
    ensures Utf8First(bs).None? ==>
              && r.0 == Replacement
              && (Needed(bs[0]).None? ==> r.1 == 1)
              && (forall i :: 1 <= i < r.1 ==> i < |bs| && InBounds(bs[0], i, bs[i]))
              && (Needed(bs[0]).Some? ==> r.1 <= Needed(bs[0]).value)
              && (Needed(bs[0]).Some? && r.1 < |bs| ==> !InBounds(bs[0], r.1, bs[r.1]))
  {
    match Utf8First(bs)
    case Some(first) =>
      Utf8FirstEncodes(bs);
      first
    case None =>
      Utf8FirstWellFormed(bs);
      (Replacement, 1 + (if Needed(bs[0]).Some? then InBoundsRun(bs, Needed(bs[0]).value) else 0))
  }

  /** UTF-8 decode without BOM: total, with U+FFFD for each ill-formed subsequence. */
  function Utf8Decode(bs: seq<byte>): string
    decreases |bs|
  {
    if |bs| == 0 then ""
    else
      var (c, k) := Utf8Next(bs);
      [c] + Utf8Decode(bs[k..])
  }

  /**
   * `Utf8First` accepts exactly the sequences whose lead byte announces
   * some number of continuation bytes and all of them lie in bounds.
   */
  lemma Utf8FirstWellFormed(bs: seq<byte>)
    requires |bs| > 0
    ensures Utf8First(bs).Some? <==> Needed(bs[0]).Some? && InBoundsRun(bs, Needed(bs[0]).value) == Needed(bs[0]).value
  {
  }

  lemma Utf8FirstOfTwo(c: char, rest: seq<byte>)
    requires 0x80 <= c as int < 0x800
    ensures Utf8First(Utf8Char(c) + rest) == Some((c, 2))
  {
    var n := c as int;
    var bs := Utf8Char(c) + rest;
    var a, b := n / 0x40, n % 0x40;
    assert bs[0] == 0xC0 + a && bs[1] == 0x80 + b;
    assert n == a * 0x40 + b;
  }

  lemma Utf8FirstOfThree(c: char, rest: seq<byte>)
    requires 0x800 <= c as int < 0x1_0000
    ensures Utf8First(Utf8Char(c) + rest) == Some((c, 3))
  {
    var n := c as int;
    var bs := Utf8Char(c) + rest;
    var a, b, d := n / 0x1000, n / 0x40 % 0x40, n % 0x40;
    assert bs[0] == 0xE0 + a && bs[1] == 0x80 + b && bs[2] == 0x80 + d;
    assert n / 0x40 == a * 0x40 + b;
    assert n == a * 0x1000 + b * 0x40 + d;
  }

  lemma Utf8FirstOfFour(c: char, rest: seq<byte>)
    requires 0x1_0000 <= c as int
    ensures Utf8First(Utf8Char(c) + rest) == Some((c, 4))
  {
    var n := c as int;
    var bs := Utf8Char(c) + rest;
    var a, b, d, e := n / 0x4_0000, n / 0x1000 % 0x40, n / 0x40 % 0x40, n % 0x40;
    assert bs[0] == 0xF0 + a && bs[1] == 0x80 + b && bs[2] == 0x80 + d && bs[3] == 0x80 + e;
    assert n / 0x1000 == a * 0x40 + b;
    assert n / 0x40 == (n / 0x1000) * 0x40 + d;
    assert n == a * 0x4_0000 + b * 0x1000 + d * 0x40 + e;
  }

  /** The decoder reads back exactly the scalar value the encoder wrote first. */
  lemma Utf8FirstOfChar(c: char, rest: seq<byte>)
    ensures Utf8First(Utf8Char(c) + rest) == Some((c, |Utf8Char(c)|))
  {
    var n := c as int;
    if n < 0x80 {
    } else if n < 0x800 {
      Utf8FirstOfTwo(c, rest);
    } else if n < 0x1_0000 {
      Utf8FirstOfThree(c, rest);
    } else {
      Utf8FirstOfFour(c, rest);
    }
  }

  /** Decoding what was encoded gives back the string. */
  lemma {:induction false} Utf8RoundTrip(s: string)
    ensures Utf8Decode(Utf8Encode(s)) == s
  {
    if |s| > 0 {
      var rest := Utf8Encode(s[1..]);
      Utf8FirstOfChar(s[0], rest);
      assert (Utf8Char(s[0]) + rest)[|Utf8Char(s[0])|..] == rest;
      Utf8RoundTrip(s[1..]);
      assert [s[0]] + s[1..] == s;
    }
  }

  // ------------------------------------------------------ percent-encoding

  /**
   * Bytes outside the application/x-www-form-urlencoded percent-encode set:
   * ASCII alphanumerics and `*`, `-`, `.`, `_`.
   */
  predicate IsUnreserved(b: byte) {
    || (0x30 <= b <= 0x39) || (0x41 <= b <= 0x5A) || (0x61 <= b <= 0x7A)
    || b == 0x2A || b == 0x2D || b == 0x2E || b == 0x5F
  }

  /** An upper-case hexadecimal digit. */
  function HexDigit(d: int): (b: byte)
    requires 0 <= d < 16
    ensures IsHexDigit(b) && HexValue(b) == d
  {
    if d < 10 then 0x30 + d else 0x41 + (d - 10)
  }

  predicate IsHexDigit(b: byte) {
    (0x30 <= b <= 0x39) || (0x41 <= b <= 0x46) || (0x61 <= b <= 0x66)
  }

  function HexValue(b: byte): (d: int)
    requires IsHexDigit(b)
    ensures 0 <= d < 16
  {
    if b <= 0x39 then b - 0x30 else if b <= 0x46 then b - 0x41 + 10 else b - 0x61 + 10
  }

  /** Percent-encodes one byte with space as plus. */
  function EscapeByte(b: byte): (bs: seq<byte>)
    ensures IsAscii(bs)
    ensures Ampersand !in bs && EqualsSign !in bs && QuestionMark !in bs
  {
    if b == Space then [Plus]
    else if IsUnreserved(b) then [b]
    else [Percent, HexDigit(b / 16), HexDigit(b % 16)]
  }

  function Escape(bs: seq<byte>): (out: seq<byte>)
    ensures IsAscii(out)
    ensures Ampersand !in out && EqualsSign !in out && QuestionMark !in out
  {
    if |bs| == 0 then [] else EscapeByte(bs[0]) + Escape(bs[1..])
  }

  function EncodeComponent(s: string): (out: seq<byte>)
    ensures IsAscii(out)
    ensures Ampersand !in out && EqualsSign !in out && QuestionMark !in out
  {
    Escape(Utf8Encode(s))
  }

  /** Replaces every `+` byte by a space. */
  function ReplacePlus(bs: seq<byte>): (out: seq<byte>)
    ensures |out| == |bs|
  {
    if |bs| == 0 then [] else [if bs[0] == Plus then Space else bs[0]] + ReplacePlus(bs[1..])
  }

  /** Percent-decode: `%` with two hex digits becomes that byte; anything else is kept. */
  function PercentDecode(bs: seq<byte>): seq<byte> {
    if |bs| == 0 then []
    else if bs[0] == Percent && 3 <= |bs| && IsHexDigit(bs[1]) && IsHexDigit(bs[2]) then
      [HexValue(bs[1]) * 16 + HexValue(bs[2])] + PercentDecode(bs[3..])
    else [bs[0]] + PercentDecode(bs[1..])
  }

  function DecodeComponent(bs: seq<byte>): string {
    Utf8Decode(PercentDecode(ReplacePlus(bs)))
  }

  lemma {:induction false} ReplacePlusAppend(a: seq<byte>, b: seq<byte>)
    ensures ReplacePlus(a + b) == ReplacePlus(a) + ReplacePlus(b)
  {
    if |a| > 0 {
      assert (a + b)[1..] == a[1..] + b;
      ReplacePlusAppend(a[1..], b);
    } else {
      assert a + b == b;
    }
  }

  lemma {:induction false} ReplacePlusNoPlus(bs: seq<byte>)
    requires Plus !in bs
    ensures ReplacePlus(bs) == bs
  {
    if |bs| > 0 {
      ReplacePlusNoPlus(bs[1..]);
      assert [bs[0]] + bs[1..] == bs;
    }
  }

  /** The escape of one byte decodes back to that byte, whatever follows it. */
  lemma UnescapeByte(b: byte, t: seq<byte>)
    ensures PercentDecode(ReplacePlus(EscapeByte(b)) + t) == [b] + PercentDecode(t)
  {
    if b == Space || IsUnreserved(b) {
      assert ReplacePlus(EscapeByte(b)) == [b];
      assert ([b] + t)[1..] == t;
    } else {
      var h, l := HexDigit(b / 16), HexDigit(b % 16);
      ReplacePlusNoPlus([Percent, h, l]);
      assert ([Percent, h, l] + t)[3..] == t;
    }
  }

  lemma {:induction false} UnescapeEscape(bs: seq<byte>)
    ensures PercentDecode(ReplacePlus(Escape(bs))) == bs
  {
    if |bs| > 0 {
      var tail := Escape(bs[1..]);
      ReplacePlusAppend(EscapeByte(bs[0]), tail);
      UnescapeByte(bs[0], ReplacePlus(tail));
      UnescapeEscape(bs[1..]);
      assert [bs[0]] + bs[1..] == bs;
    }
  }

  /** `%FF` names a byte no UTF-8 sequence starts with, so it reads as U+FFFD. */
  lemma PercentFFIsReplacement()
    ensures DecodeComponent([Percent, 0x46, 0x46]) == [Replacement]
  {
    ReplacePlusNoPlus([Percent, 0x46, 0x46]);
    assert PercentDecode([Percent, 0x46, 0x46]) == [0xFF];
    assert Utf8Decode([0xFF]) == [Replacement];
  }

  /**
   * Ill-formed UTF-8 decodes to U+FFFD, one for a stray byte and one for
   * each maximal ill-formed subsequence, and the byte that breaks a
   * sequence is read again.
   */
  lemma ReplacementExamples()
    ensures Utf8Decode([0xFF]) == [Replacement]
    ensures Utf8Decode([0xE2, 0x82]) == [Replacement]
    ensures Utf8Decode([0xE2, 0x41]) == [Replacement, 'A']
    ensures Utf8Decode([0xED, 0xA0, 0x80]) == [Replacement, Replacement, Replacement]
    ensures Utf8Decode([0xE2, 0x82, 0xAC]) == ['\U{20AC}']
  {
    assert [0xE2, 0x41][1..] == [0x41];
    assert [0xED, 0xA0, 0x80][1..] == [0xA0, 0x80];
    assert [0xA0, 0x80][1..] == [0x80];
  }

  /** A component decodes back to the string it was encoded from. */
  lemma ComponentRoundTrip(s: string)
    ensures DecodeComponent(EncodeComponent(s)) == s
  {
    UnescapeEscape(Utf8Encode(s));
    Utf8RoundTrip(s);
  }

  // ------------------------------------------------- serializer and parser

  function EncodePair(pair: (string, string)): (out: seq<byte>)
    ensures IsAscii(out) && Ampersand !in out && QuestionMark !in out
  {
    EncodeComponent(pair.0) + [EqualsSign] + EncodeComponent(pair.1)
  }

  /**
   * The serializer of section 5.2: each pair as `name=value`, pairs joined
   * by `&`. (The standard appends `&` before every pair but the first; as no
   * encoded pair is empty, that is the same as joining.)
   */
  function SerializeBytes(pairs: seq<(string, string)>): (out: seq<byte>)
    ensures IsAscii(out) && QuestionMark !in out
  {
    if |pairs| == 0 then []
    else if |pairs| == 1 then EncodePair(pairs[0])
    else EncodePair(pairs[0]) + [Ampersand] + SerializeBytes(pairs[1..])
  }

  /** Bytes below 0x100 read as the code points of the same value. */
  function Isomorphic(bs: seq<byte>): (s: string)
    ensures |s| == |bs|
    ensures forall i :: 0 <= i < |bs| ==> s[i] as int == bs[i]
  {
    if |bs| == 0 then "" else [bs[0] as char] + Isomorphic(bs[1..])
  }

  /**
   * `new URLSearchParams(pairs).toString()`: ASCII only, empty exactly for
   * no pairs, and never holding a `?` (it is always escaped as `%3F`).
   */
  function Serialize(pairs: seq<(string, string)>): (q: string)
    ensures forall i :: 0 <= i < |q| ==> q[i] as int < 0x80 && q[i] != '?'
    ensures q == "" <==> pairs == []
  {
    Isomorphic(SerializeBytes(pairs))
  }

  /** The position of the first `b` in `bs`, or `|bs|` when there is none. */
  function IndexOf(bs: seq<byte>, b: byte): (k: nat)
    ensures k <= |bs|
    ensures forall i :: 0 <= i < k ==> bs[i] != b
    ensures k < |bs| ==> bs[k] == b
  {
    if |bs| == 0 then 0 else if bs[0] == b then 0 else 1 + IndexOf(bs[1..], b)
  }

  /** One `name=value` sequence: split at the first `=`, then decode both sides. */
  function ParsePair(bs: seq<byte>): (string, string) {
    var k := IndexOf(bs, EqualsSign);
    var value := if k < |bs| then bs[k + 1..] else [];
    (DecodeComponent(bs[..k]), DecodeComponent(value))
  }

  /** The parser of section 5.1 over bytes: split at `&`, skip empty sequences. */
  function ParseBytes(bs: seq<byte>): seq<(string, string)>
    decreases |bs|
  {
    if |bs| == 0 then []
    else
      var k := IndexOf(bs, Ampersand);
      if k == |bs| then [ParsePair(bs)]
      else if k == 0 then ParseBytes(bs[1..])
      else [ParsePair(bs[..k])] + ParseBytes(bs[k + 1..])
  }

  /**
   * `new URLSearchParams(init)` for a string `init`: a leading `?` is
   * dropped, and the rest is parsed as above. It never fails: bytes that
   * do not decode as UTF-8 read as U+FFFD.
   */
  function Parse(init: string): (r: seq<(string, string)>)
    ensures init == "" || init == "?" ==> r == []
  {
    var query := if |init| > 0 && init[0] == '?' then init[1..] else init;
    ParseBytes(Utf8Encode(query))
  }

  lemma {:induction false} IndexOfAbsent(bs: seq<byte>, b: byte)
    requires b !in bs
    ensures IndexOf(bs, b) == |bs|
  {
    if |bs| > 0 {
      IndexOfAbsent(bs[1..], b);
    }
  }

  lemma {:induction false} IndexOfFirst(a: seq<byte>, b: byte, c: seq<byte>)
    requires b !in a
    ensures IndexOf(a + [b] + c, b) == |a|
  {
    if |a| > 0 {
      assert (a + [b] + c)[1..] == a[1..] + [b] + c;
      IndexOfFirst(a[1..], b, c);
    }
  }

  lemma PairRoundTrip(pair: (string, string))
    ensures ParsePair(EncodePair(pair)) == pair
  {
    var n, v := EncodeComponent(pair.0), EncodeComponent(pair.1);
    var bs := EncodePair(pair);
    IndexOfFirst(n, EqualsSign, v);
    assert bs[..|n|] == n;
    assert bs[|n| + 1..] == v;
    ComponentRoundTrip(pair.0);
    ComponentRoundTrip(pair.1);
  }

  /** A non-empty sequence without `&` is parsed as the last pair. */
  lemma ParseBytesLast(bs: seq<byte>)
    requires |bs| > 0 && Ampersand !in bs
    ensures ParseBytes(bs) == [ParsePair(bs)]
  {
    IndexOfAbsent(bs, Ampersand);
  }

  /** A non-empty sequence followed by `&` is parsed as one pair before the rest. */
  lemma ParseBytesStep(first: seq<byte>, tail: seq<byte>)
    requires |first| > 0 && Ampersand !in first
    ensures ParseBytes(first + [Ampersand] + tail) == [ParsePair(first)] + ParseBytes(tail)
  {
    var bs := first + [Ampersand] + tail;
    IndexOfFirst(first, Ampersand, tail);
    assert bs[..|first|] == first;
    assert bs[|first| + 1..] == tail;
  }

  lemma {:induction false} SerializeBytesRoundTrip(pairs: seq<(string, string)>)
    ensures ParseBytes(SerializeBytes(pairs)) == pairs
  {
    if |pairs| == 1 {
      var first := EncodePair(pairs[0]);
      assert first[|EncodeComponent(pairs[0].0)|] == EqualsSign;
      PairRoundTrip(pairs[0]);
      ParseBytesLast(first);
      assert [pairs[0]] == pairs;
    } else if |pairs| > 1 {
      ParsePairThen(pairs[0], SerializeBytes(pairs[1..]));
      SerializeBytesRoundTrip(pairs[1..]);
      assert [pairs[0]] + pairs[1..] == pairs;
    }
  }

  lemma {:induction false} Utf8OfAscii(bs: seq<byte>)
    requires IsAscii(bs)
    ensures Utf8Encode(Isomorphic(bs)) == bs
  {
    if |bs| > 0 {
      Utf8OfAscii(bs[1..]);
      assert Isomorphic(bs)[1..] == Isomorphic(bs[1..]);
      assert [bs[0]] + bs[1..] == bs;
    }
  }

  /** What `URLSearchParams` serializes, it parses back to the same list. */
  lemma RoundTrip(pairs: seq<(string, string)>)
    ensures Parse(Serialize(pairs)) == pairs
  {
    Utf8OfAscii(SerializeBytes(pairs));
    SerializeBytesRoundTrip(pairs);
  }

  /**
   * A query parses the same with or without the one leading `?` the
   * constructor drops, so `location.search` reads as its query.
   */
  lemma ParseSearch(query: string)
    requires query == "" || query[0] != '?'
    ensures Parse("?" + query) == Parse(query)
  {
    assert ("?" + query)[1..] == query;
  }

  lemma {:induction false} Utf8EncodeAppend(a: string, b: string)
    ensures Utf8Encode(a + b) == Utf8Encode(a) + Utf8Encode(b)
  {
    if |a| > 0 {
      assert (a + b)[1..] == a[1..] + b;
      Utf8EncodeAppend(a[1..], b);
    } else {
      assert a + b == b;
    }
  }

  /** One encoded pair, an `&`, then anything: the pair comes back first. */
  lemma ParsePairThen(pair: (string, string), tail: seq<byte>)
    ensures ParseBytes(EncodePair(pair) + [Ampersand] + tail) == [pair] + ParseBytes(tail)
  {
    var first := EncodePair(pair);
    assert first[|EncodeComponent(pair.0)|] == EqualsSign;
    PairRoundTrip(pair);
    ParseBytesStep(first, tail);
  }

  lemma ConsAppend<T>(xs: seq<T>, ys: seq<T>)
    requires |xs| > 0
    ensures [xs[0]] + (xs[1..] + ys) == xs + ys
  {
    assert [xs[0]] + xs[1..] == xs;
  }

  lemma {:induction false} ParseBytesPrefix(pairs: seq<(string, string)>, tail: seq<byte>)
    requires |pairs| > 0
    ensures ParseBytes(SerializeBytes(pairs) + [Ampersand] + tail) == pairs + ParseBytes(tail)
  {
    if |pairs| == 1 {
      ParsePairThen(pairs[0], tail);
      assert [pairs[0]] == pairs;
    } else {
      var first, rest := EncodePair(pairs[0]), SerializeBytes(pairs[1..]);
      var more := rest + [Ampersand] + tail;
      assert SerializeBytes(pairs) + [Ampersand] + tail == first + [Ampersand] + more;
      ParsePairThen(pairs[0], more);
      ParseBytesPrefix(pairs[1..], tail);
      ConsAppend(pairs, ParseBytes(tail));
    }
  }

  /**
   * What follows a serialized list after an `&` cannot disturb it: the
   * list parses back first, however malformed the rest is.
   */
  lemma ParsePrefix(pairs: seq<(string, string)>, rest: string)
    requires |pairs| > 0
    ensures |Parse(Serialize(pairs) + "&" + rest)| >= |pairs|
    ensures Parse(Serialize(pairs) + "&" + rest)[..|pairs|] == pairs
  {
    var q := Serialize(pairs);
    var bs := SerializeBytes(pairs);
    var whole := q + "&" + rest;
    assert whole[0] == q[0];
    Utf8EncodeAppend(q + "&", rest);
    Utf8EncodeAppend(q, "&");
    Utf8OfAscii(bs);
    assert Utf8Encode(whole) == bs + [Ampersand] + Utf8Encode(rest);
    ParseBytesPrefix(pairs, Utf8Encode(rest));
    assert Parse(whole) == pairs + ParseBytes(Utf8Encode(rest));
  }
}

=== FILE: http.dfy ===
/**
 * The request and response vocabulary shared by the session helpers and the
 * route handlers: decoded sessions, submitted forms, `Set-Cookie` effects and
 * the responses a Remix loader or action produces.
 *
 * The signed cookie codec is not modelled: a request carries the session map
 * that `getSession(request.headers.get('Cookie'))` decodes, and a response
 * says what it does to the client's cookie.
 */
module Http {
  import opened Options

  /** A value stored in a session. Remix sessions hold arbitrary JSON. */
  datatype Value = Str(str: string) | Num(num: int) | Bool(flag: bool) | Null

  /** A decoded session: the key/value record the cookie carries. */
  type Session = map<string, Value>

  /** One entry of a submitted form: a text field or an uploaded file. */
  datatype FormValue = Text(text: string) | File(fileName: string)

  /** Submitted form data, in submission order; a name may occur more than once. */
  type FormData = seq<(string, FormValue)>

  /** `value.toString()` of a form entry: a `File` prints as its class tag. */
  function ToText(v: FormValue): (t: string)
    ensures v.Text? ==> t == v.text
    ensures v.File? ==> t == "[object File]"
  {
    match v
    case Text(t) => t
    case File(_) => "[object File]"
  }

  /**
   * The value of the FIRST entry named `name` in a list of name/value
   * entries, as `FormData.get` and `URLSearchParams.get` return it.
   */
  function Lookup<V>(entries: seq<(string, V)>, name: string): (r: Option<V>)
    ensures r.None? <==> forall i :: 0 <= i < |entries| ==> entries[i].0 != name
    ensures r.Some? ==> exists i :: 0 <= i < |entries| && entries[i].0 == name && r.value == entries[i].1
                                    && forall j :: 0 <= j < i ==> entries[j].0 != name
  {
    if |entries| == 0 then None
    else if entries[0].0 == name then Some(entries[0].1)
    else
      var r := Lookup(entries[1..], name);
      if r.Some? then
        ghost var i :| 0 <= i < |entries[1..]| && entries[1..][i].0 == name && r.value == entries[1..][i].1
                       && forall j :: 0 <= j < i ==> entries[1..][j].0 != name;
        assert entries[i + 1].0 == name && forall j :: 0 <= j < i + 1 ==> entries[j].0 != name;
        r
      else r
  }

  /** Entries after a list that already has `name` do not change what `get` returns. */
  lemma {:induction false} LookupPrefix<V>(entries: seq<(string, V)>, n: nat, name: string)
    requires n <= |entries| && Lookup(entries[..n], name).Some?
    ensures Lookup(entries, name) == Lookup(entries[..n], name)
  {
    if entries[0].0 != name {
      assert entries[..n][1..] == entries[1..][..n - 1];
      LookupPrefix(entries[1..], n - 1, name);
    }
  }

  /**
   * `data.get(name)?.toString()`: nothing exactly when no entry is named
   * `name`, otherwise the text of the first such entry, a file reading as
   * "[object File]".
   */
  function Field(form: FormData, name: string): (r: Option<string>)
    ensures r.None? <==> forall i :: 0 <= i < |form| ==> form[i].0 != name
    ensures r.Some? ==> exists i :: 0 <= i < |form| && form[i].0 == name
                                    && (forall j :: 0 <= j < i ==> form[j].0 != name)
                                    && (form[i].1.Text? ==> r.value == form[i].1.text)
                                    && (form[i].1.File? ==> r.value == "[object File]")
  {
    match Lookup(form, name)
    case None => None
    case Some(v) => Some(ToText(v))
  }

  /** The number of UTF-16 code units a character takes: two above U+FFFF, one otherwise. */
  function CodeUnits(c: char): nat {
    if c as int >= 0x1_0000 then 2 else 1
  }

  /**
   * JavaScript's `s.length`: strings are sequences of UTF-16 code units, so
   * a character outside the Basic Multilingual Plane counts twice.
   */
  function JsLength(s: string): (n: nat)
    ensures |s| <= n <= 2 * |s|
    ensures n == |s| <==> forall i :: 0 <= i < |s| ==> s[i] as int < 0x1_0000
  {
    if |s| == 0 then 0 else CodeUnits(s[0]) + JsLength(s[1..])
  }

  /** JavaScript truthiness of `string | undefined`: present and non-empty. */
  predicate Filled(field: Option<string>) {
    field.Some? && field.value != ""
  }

  /** An incoming HTTP request, reduced to what the handlers read from it. */
  datatype Request = Request(
    session: Session,  // the decoded `Cookie` header; empty when absent or tampered
    path: string,      // `new URL(request.url).pathname`
    form: FormData)    // `await request.formData()`

  /** What a response does to the client's session cookie. */
  datatype SetCookie =
    | Keep              // no `Set-Cookie` header
    | Commit(session: Session)  // `commitSession(session)`
    | Destroy           // `destroySession(session)`: the cookie expires at once

  /** The session the client presents on its next request. */
  function NextSession(current: Session, cookie: SetCookie): (s: Session)
    ensures cookie.Keep? ==> s == current
    ensures cookie.Destroy? ==> |s| == 0
  {
    match cookie
    case Keep => current
    case Commit(committed) => committed
    case Destroy => map[]
  }

  /** A response of a loader or action, carrying JSON of type `D`. */
  datatype Response<D> =
    | Json(status: nat, data: D)                  // `json(data, { status })`, or a returned object (200)
    | Redirect(location: string, cookie: SetCookie)  // `redirect(location, { headers })`
    | Plain(status: nat, body: string)            // `new Response(body, { status })`
    | ServerError                                 // an exception that is not a `Response`

  function StatusOf<D>(r: Response<D>): (code: nat)
    ensures r.Redirect? ==> code == 302
    ensures r.ServerError? ==> code == 500
  {
    match r
    case Json(status, _) => status
    case Redirect(_, _) => 302
    case Plain(status, _) => status
    case ServerError => 500
  }

  /** `badRequest(data)`: the data as a JSON body with status 400. */
  function BadRequest<D>(data: D): (r: Response<D>)
    ensures r.Json? && StatusOf(r) == 400 && r.data == data
  {
    Json(400, data)
  }

  /**
   * The result of a step that either hands a value on or ends the request
   * early with a response (a `throw redirect(...)` in the source).
   */
  datatype Guarded<T, D> = Proceed(value: T) | Halt(response: Response<D>)
}

=== FILE: journeys.dfy ===
/**
 * Whole journeys through the routes, each a sequence of requests where the
 * cookie a response sets is the session the next request presents.
 */
module Journeys {
  import opened Options
  import opened Http
  import opened Store
  import opened Crypto
  import opened Auth
  import FormUrlEncoded
  import LoginRoute
  import NewJokeRoute

  /** The login page's form: the hidden `redirectTo` input, then the radio and text inputs. */
  function SignInForm(redirectTo: string, loginType: string, username: string, password: string): FormData {
    [("redirectTo", Text(redirectTo)), ("loginType", Text(loginType)),
     ("username", Text(username)), ("password", Text(password))]
  }

  /**
   * The value of the login page's hidden input, `searchParams.get('redirectTo')`
   * of the page's `location.search`: the first `redirectTo` the query holds,
   * or empty (no `value` attribute) when it holds none.
   */
  function HiddenRedirectTo(search: string): (r: string)
    ensures var pairs := FormUrlEncoded.Parse(search);
            || (r == "" && forall i :: 0 <= i < |pairs| ==> pairs[i].0 != "redirectTo")
            || exists i :: 0 <= i < |pairs| && pairs[i] == ("redirectTo", r)
                           && forall j :: 0 <= j < i ==> pairs[j].0 != "redirectTo"
  {
    Lookup(FormUrlEncoded.Parse(search), "redirectTo").GetOr("")
  }

  /** `location.search` of a location `/login?<query>`: everything from the `?` on. */
  function LoginPageSearch(location: string): string
    requires |location| >= |LoginPath|
  {
    location[|LoginPath|..]
  }

  /**
   * A page whose search was written by `URLSearchParams` puts the first
   * `redirectTo` it was given into the hidden input.
   */
  lemma HiddenRedirectToOfSerialized(pairs: seq<(string, string)>)
    ensures HiddenRedirectTo("?" + FormUrlEncoded.Serialize(pairs)) == Lookup(pairs, "redirectTo").GetOr("")
  {
    FormUrlEncoded.ParseSearch(FormUrlEncoded.Serialize(pairs));
    FormUrlEncoded.RoundTrip(pairs);
  }

  lemma ReadSignInForm(redirectTo: string, loginType: string, username: string, password: string)
    ensures LoginRoute.Read(SignInForm(redirectTo, loginType, username, password))
            == LoginRoute.Submission(Some(username), Some(password), Some(loginType), Some(redirectTo))
  {
    var form := SignInForm(redirectTo, loginType, username, password);
    assert form[1..][1..] == form[2..];
    assert form[2..][1..] == form[3..];
    assert form[3..][1..] == [];
    assert Lookup(form, "redirectTo") == Some(Text(redirectTo));
    assert Lookup(form[1..], "loginType") == Some(Text(loginType));
    assert Lookup(form[2..], "username") == Some(Text(username));
    assert Lookup(form[3..], "password") == Some(Text(password));
  }

  /** A login post with acceptable fields that `login` accepts opens the session of that user. */
  lemma LoginPost(db: Db, hasher: Hasher, req: Request, redirectTo: string, user: User, password: string,
                  id: string, salt: string)
    requires JsLength(user.username) >= LoginRoute.MinUsernameLength && JsLength(password) >= LoginRoute.MinPasswordLength
    requires Login(db, hasher, user.username, password) == Some(user)
    requires req.form == SignInForm(redirectTo, "login", user.username, password)
    ensures LoginRoute.Action(req, db, hasher, id, salt)
            == Handled(CreateUserSession(user.id, if redirectTo == "" then LoginRoute.DefaultRedirect else redirectTo), db)
  {
    ReadSignInForm(redirectTo, "login", user.username, password);
    var s := LoginRoute.Read(req.form);
    assert LoginRoute.Acceptable(s) && s.loginType.value == "login";
    assert LoginRoute.Target(s) == if redirectTo == "" then LoginRoute.DefaultRedirect else redirectTo;
  }

  /**
   * A register post with an acceptable, fresh username creates the user and
   * opens its session, redirecting to the submitted target or `/jokes`.
   */
  lemma RegisterPost(db: Db, hasher: Hasher, req: Request, redirectTo: string, username: string, password: string,
                     id: string, salt: string)
    requires JsLength(username) >= LoginRoute.MinUsernameLength && JsLength(password) >= LoginRoute.MinPasswordLength
    requires FindUser(db.users, ByUsername(username)).None? && FindUser(db.users, ById(id)).None?
    requires req.form == SignInForm(redirectTo, "register", username, password)
    ensures LoginRoute.Action(req, db, hasher, id, salt)
            == Handled(CreateUserSession(id, if redirectTo == "" then LoginRoute.DefaultRedirect else redirectTo),
                       db.(users := db.users + [User(id, username, hasher.hash(password, BcryptCost, salt))]))
  {
    ReadSignInForm(redirectTo, "register", username, password);
    var s := LoginRoute.Read(req.form);
    assert LoginRoute.Acceptable(s) && s.loginType.value == "register";
    assert LoginRoute.Target(s) == if redirectTo == "" then LoginRoute.DefaultRedirect else redirectTo;
    var user := User(id, username, hasher.hash(password, BcryptCost, salt));
    assert Register(db, hasher, username, password, id, salt) == Some((user, db.(users := db.users + [user])));
  }

  /**
   * Whatever a search holds after the pairs `URLSearchParams` wrote (more
   * pairs, or bytes that are not UTF-8), the hidden input holds the first
   * `redirectTo` among those pairs.
   */
  lemma HiddenRedirectToIgnoresRest(pairs: seq<(string, string)>, rest: string)
    requires Lookup(pairs, "redirectTo").Some?
    ensures HiddenRedirectTo("?" + FormUrlEncoded.Serialize(pairs) + "&" + rest) == Lookup(pairs, "redirectTo").value
  {
    var query := FormUrlEncoded.Serialize(pairs) + "&" + rest;
    assert "?" + FormUrlEncoded.Serialize(pairs) + "&" + rest == "?" + query;
    assert query[0] == FormUrlEncoded.Serialize(pairs)[0];
    FormUrlEncoded.ParseSearch(query);
    FormUrlEncoded.ParsePrefix(pairs, rest);
    LookupPrefix(FormUrlEncoded.Parse(query), |pairs|, "redirectTo");
  }

  /** An anonymous post to `/jokes/new` is sent to a login page whose hidden input holds the post's path. */
  lemma GateRemembersPath(req: Request, db: Db, jokeId: string)
    requires GetUserId(req).None?
    ensures var gate := NewJokeRoute.Action(req, db, jokeId).response;
            && gate.Redirect? && |gate.location| >= |LoginPath|
            && HiddenRedirectTo(LoginPageSearch(gate.location)) == req.path
  {
    assert Lookup([("redirectTo", req.path)], "redirectTo") == Some(req.path);
  }

  /**
   * An anonymous post to `/jokes/new` is sent to the login page, and signing
   * in there with valid credentials sends the user back to the page they
   * came from, with a session under which the post passes the gate.
   */
  lemma SignInReturnsToPage(req: Request, db: Db, jokeId: string, loginReq: Request,
                            hasher: Hasher, user: User, password: string, id: string, salt: string)
    requires Valid(db) && GetUserId(req).None?
    requires user in db.users && user.id != ""
    requires JsLength(user.username) >= LoginRoute.MinUsernameLength && JsLength(password) >= LoginRoute.MinPasswordLength
    requires hasher.compare(password, user.passwordHash)
    requires var gate := NewJokeRoute.Action(req, db, jokeId).response;
             && gate.Redirect? && |gate.location| >= |LoginPath|
             && loginReq.form == SignInForm(HiddenRedirectTo(LoginPageSearch(gate.location)), "login", user.username, password)
    ensures var signIn := LoginRoute.Action(loginReq, db, hasher, id, salt).response;
            && signIn.Redirect?
            && signIn.location == (if req.path == "" then LoginRoute.DefaultRedirect else req.path)
            && var next := req.(session := NextSession(loginReq.session, signIn.cookie));
               RequireUserId<NewJokeRoute.ActionData>(next, None) == Proceed(user.id)
  {
    GateRemembersPath(req, db, jokeId);
    FindUserUnique(db, ByUsername(user.username), user);
    LoginPost(db, hasher, loginReq, req.path, user, password, id, salt);
  }

  /**
   * Registering through the login form and then logging in with the same
   * username and password opens a session for the user registration
   * created.
   */
  lemma RegisterThenLogIn(db: Db, hasher: Hasher, first: Request, second: Request,
                          username: string, password: string, id: string, salt: string, id2: string, salt2: string)
    requires Valid(db) && Sound(hasher) && id != ""
    requires JsLength(username) >= LoginRoute.MinUsernameLength && JsLength(password) >= LoginRoute.MinPasswordLength
    requires FindUser(db.users, ByUsername(username)).None? && FindUser(db.users, ById(id)).None?
    requires first.form == SignInForm("", "register", username, password)
    requires second.form == SignInForm("", "login", username, password)
    ensures var registered := LoginRoute.Action(first, db, hasher, id, salt);
            var loggedIn := LoginRoute.Action(second, registered.db, hasher, id2, salt2);
            && |registered.db.users| == |db.users| + 1
            && loggedIn.db == registered.db
            && loggedIn.response == CreateUserSession(id, LoginRoute.DefaultRedirect)
            && GetUserId(second.(session := NextSession(second.session, loggedIn.response.cookie))) == Some(id)
  {
    var user := User(id, username, hasher.hash(password, BcryptCost, salt));
    RegisterPost(db, hasher, first, "", username, password, id, salt);
    RegisterThenLogin(db, hasher, username, password, id, salt);
    LoginPost(db.(users := db.users + [user]), hasher, second, "", user, password, id2, salt2);
  }

  /**
   * `login` on the stored record of a registration: the registered password
   * is accepted, a password bcrypt does not match is refused.
   */
  lemma RegisteredPasswordOnly(db: Db, hasher: Hasher, id: string, salt: string, wrong: string)
    requires Valid(db) && Sound(hasher)
    requires FindUser(db.users, ByUsername("alice")).None? && FindUser(db.users, ById(id)).None?
    requires !hasher.compare(wrong, hasher.hash("secret1", BcryptCost, salt))
    ensures var (user, db') := Register(db, hasher, "alice", "secret1", id, salt).value;
            && Login(db', hasher, "alice", "secret1") == Some(user)
            && Login(db', hasher, "alice", wrong).None?
  {
    RegisterThenLogin(db, hasher, "alice", "secret1", id, salt);
  }

  /** After logging out, the next request is anonymous: the loader refuses it and the action sends it to log in. */
  lemma LogoutEndsSession(req: Request, next: Request, db: Db, id: string)
    ensures var out := Logout<NewJokeRoute.ActionData>(req);
            var after := next.(session := NextSession(req.session, out.cookie));
            && NewJokeRoute.Loader(after) == Plain(401, "Unauthorized")
            && NewJokeRoute.Action(after, db, id).db == db
            && var r := NewJokeRoute.Action(after, db, id).response;
               && r.Redirect? && r.cookie.Keep?
               && |r.location| > |LoginPath| && r.location[..|LoginPath| + 1] == LoginPath + "?"
               && FormUrlEncoded.Parse(r.location[|LoginPath|..]) == [("redirectTo", next.path)]
  {
    var after := next.(session := NextSession(req.session, Logout<NewJokeRoute.ActionData>(req).cookie));
    NewJokeRoute.AnonymousCannotPost(after, db, id, after.form);
  }
}

=== FILE: login_route.dfy ===
/**
 * The `/login` route's action (`app/routes/login.tsx`): it reads the login
 * form, checks that every field was submitted, validates the lengths of the
 * username and password, and only then logs in, registers, or rejects the
 * login type.
 */
module LoginRoute {
  import opened Options
  import opened Http
  import opened Store
  import opened Crypto
  import opened Auth

  const DefaultRedirect := "/jokes"
  const MinUsernameLength := 3
  const MinPasswordLength := 6

  const FormNotSubmitted := "Form not submitted properly."
  const UsernameTooShort := "Username must be at least 3 characters long."
  const PasswordTooShort := "Password must be at least 6 characters long."
  const WrongCredentials := "Username/Password combination is incorrect"
  const InvalidLoginType := "Login type invalid"

  function UserExists(username: string): string {
    "User with username " + username + " already exists"
  }

  datatype FieldErrors = FieldErrors(username: Option<string>, password: Option<string>)

  datatype Fields = Fields(loginType: string, username: string, password: string)

  /** The JSON body of a 400 response. */
  datatype ActionData = ActionData(formError: Option<string>, fieldErrors: Option<FieldErrors>, fields: Option<Fields>)

  /** The login form as the action reads it, each field `data.get(name)?.toString()`. */
  datatype Submission = Submission(
    username: Option<string>,
    password: Option<string>,
    loginType: Option<string>,
    redirectTo: Option<string>)

  function Read(form: FormData): Submission {
    Submission(Field(form, "username"), Field(form, "password"), Field(form, "loginType"), Field(form, "redirectTo"))
  }

  /** Username, password and login type are all present and non-empty. */
  predicate Complete(s: Submission) {
    Filled(s.username) && Filled(s.password) && Filled(s.loginType)
  }

  /** A complete submission whose username and password are long enough, by JavaScript's `length`. */
  predicate Acceptable(s: Submission) {
    Complete(s) && JsLength(s.username.value) >= MinUsernameLength && JsLength(s.password.value) >= MinPasswordLength
  }

  /** Where a successful login or registration goes: `redirectTo`, or `/jokes` when it is missing or empty. */
  function Target(s: Submission): (to: string)
    ensures to != ""
    ensures Filled(s.redirectTo) ==> to == s.redirectTo.value
  {
    if Filled(s.redirectTo) then s.redirectTo.value else DefaultRedirect
  }

  function FieldsOf(s: Submission): Fields
    requires Complete(s)
  {
    Fields(s.loginType.value, s.username.value, s.password.value)
  }

  /** `validateUsername`: an error exactly when the username is shorter than 3 UTF-16 code units. */
  function ValidateUsername(username: string): (error: Option<string>)
    ensures error.Some? <==> JsLength(username) < 3
    ensures error.Some? ==> error.value == UsernameTooShort
  {
    if JsLength(username) < MinUsernameLength then Some(UsernameTooShort) else None
  }

  /** `validatePassword`: an error exactly when the password is shorter than 6 UTF-16 code units. */
  function ValidatePassword(password: string): (error: Option<string>)
    ensures error.Some? <==> JsLength(password) < 6
    ensures error.Some? ==> error.value == PasswordTooShort
  {
    if JsLength(password) < MinPasswordLength then Some(PasswordTooShort) else None
  }

  /**
   * Lengths are JavaScript's: a character above U+FFFF counts twice, so one
   * emoji and a letter make a long enough username, and three emoji a long
   * enough password.
   */
  lemma LengthsInCodeUnits()
    ensures ValidateUsername("\U{1F600}a").None? && ValidateUsername("ab").Some?
    ensures ValidatePassword("\U{1F600}\U{1F600}\U{1F600}").None? && ValidatePassword("abcde").Some?
  {
  }

  /**
   * The action. `id` and `salt` are the identifier the database and the
   * salt bcrypt would draw for a registration.
   */
  function Action(req: Request, db: Db, hasher: Hasher, id: string, salt: string): (h: Handled<ActionData>)
    // a missing or empty field: only a form error, store untouched
    ensures !Complete(Read(req.form)) ==>
              h == Handled(BadRequest(ActionData(Some(FormNotSubmitted), None, None)), db)
    // a field too short: both field errors and the echoed fields, store untouched
    ensures Complete(Read(req.form)) && !Acceptable(Read(req.form)) ==>
              var s := Read(req.form);
              && h.db == db
              && h.response == BadRequest(ActionData(None,
                   Some(FieldErrors(ValidateUsername(s.username.value), ValidatePassword(s.password.value))),
                   Some(FieldsOf(s))))
    // login: wrong credentials are a 400 without a session, right ones open a session for that user
    ensures Acceptable(Read(req.form)) && Read(req.form).loginType.value == "login" ==>
              var s := Read(req.form);
              && h.db == db
              && match Login(db, hasher, s.username.value, s.password.value)
                 case None => h.response == BadRequest(ActionData(Some(WrongCredentials), None, Some(FieldsOf(s))))
                 case Some(user) => h.response == CreateUserSession(user.id, Target(s))
    // register: a taken username is a 400, a fresh one adds the user and opens a session for it
    ensures Acceptable(Read(req.form)) && Read(req.form).loginType.value == "register" ==>
              var s := Read(req.form);
              if FindUser(db.users, ByUsername(s.username.value)).Some? then
                h == Handled(BadRequest(ActionData(Some(UserExists(s.username.value)), None, Some(FieldsOf(s)))), db)
              else
                match Register(db, hasher, s.username.value, s.password.value, id, salt)
                case None => h == Handled(ServerError, db)
                case Some((user, db')) => h == Handled(CreateUserSession(user.id, Target(s)), db')
    // any other login type: a 400, store untouched
    ensures Acceptable(Read(req.form)) && Read(req.form).loginType.value !in {"login", "register"} ==>
              h == Handled(BadRequest(ActionData(Some(InvalidLoginType), None, Some(FieldsOf(Read(req.form))))), db)
  {
    var s := Read(req.form);
    if !Filled(s.username) || !Filled(s.password) || !Filled(s.loginType) then
      Handled(BadRequest(ActionData(Some(FormNotSubmitted), None, None)), db)
    else
      var username, password, loginType := s.username.value, s.password.value, s.loginType.value;
      var fieldErrors := FieldErrors(ValidateUsername(username), ValidatePassword(password));
      var fields := Fields(loginType, username, password);
      if fieldErrors.username.Some? || fieldErrors.password.Some? then
        Handled(BadRequest(ActionData(None, Some(fieldErrors), Some(fields))), db)
      else if loginType == "login" then
        match Login(db, hasher, username, password)
        case None => Handled(BadRequest(ActionData(Some(WrongCredentials), None, Some(fields))), db)
        case Some(user) => Handled(CreateUserSession(user.id, Target(s)), db)
      else if loginType == "register" then
        if FindUser(db.users, ByUsername(username)).Some? then
          Handled(BadRequest(ActionData(Some(UserExists(username)), None, Some(fields))), db)
        else
          // `register` either returns the created user or throws; its `!user` branch cannot be taken
          match Register(db, hasher, username, password, id, salt)
          case None => Handled(ServerError, db)
          case Some((user, db')) => Handled(CreateUserSession(user.id, Target(s)), db')
      else
        Handled(BadRequest(ActionData(Some(InvalidLoginType), None, Some(fields))), db)
  }

  /**
   * A submission that fails the presence or length checks is answered
   * before any lookup: the response is the same whatever the store, the
   * hasher or the login type, and nothing is stored.
   */
  lemma RejectedBeforeLookup(req: Request, db: Db, hasher: Hasher, id: string, salt: string,
                             db2: Db, hasher2: Hasher, id2: string, salt2: string)
    requires !Acceptable(Read(req.form))
    ensures Action(req, db, hasher, id, salt).db == db
    ensures Action(req, db, hasher, id, salt).response == Action(req, db2, hasher2, id2, salt2).response
    ensures StatusOf(Action(req, db, hasher, id, salt).response) == 400
  {
  }

  /**
   * The store changes only by a registration under a username not yet
   * taken, and then by exactly one user holding that username and the
   * bcrypt digest of the submitted password.
   */
  lemma OnlyRegistrationWrites(req: Request, db: Db, hasher: Hasher, id: string, salt: string)
    ensures var h := Action(req, db, hasher, id, salt);
            var s := Read(req.form);
            h.db != db ==>
              && Acceptable(s) && s.loginType.value == "register"
              && FindUser(db.users, ByUsername(s.username.value)).None?
              && h.db == db.(users := db.users + [User(id, s.username.value, hasher.hash(s.password.value, BcryptCost, salt))])
  {
  }

  /**
   * A session is only ever opened for a stored user whose username was
   * submitted and whose digest the submitted password matches, and the
   * redirect goes to the submitted target.
   */
  lemma SessionOnlyForCredentials(req: Request, db: Db, hasher: Hasher, id: string, salt: string)
    requires Sound(hasher)
    ensures var h := Action(req, db, hasher, id, salt);
            var s := Read(req.form);
            h.response.Redirect? ==>
              && Acceptable(s)
              && h.response.location == Target(s)
              && h.response.cookie.Commit?
              && exists user :: user in h.db.users && h.response.cookie.session == map[UserIdKey := Str(user.id)]
                                && user.username == s.username.value
                                && hasher.compare(s.password.value, user.passwordHash)
  {
    var h := Action(req, db, hasher, id, salt);
    var s := Read(req.form);
    if h.response.Redirect? {
      var username, password := s.username.value, s.password.value;
      if s.loginType.value == "login" {
        var user := Login(db, hasher, username, password).value;
        assert user in h.db.users && h.response.cookie.session == map[UserIdKey := Str(user.id)];
      } else {
        var user := User(id, username, hasher.hash(password, BcryptCost, salt));
        assert h.db.users == db.users + [user];
        assert user in h.db.users && h.response.cookie.session == map[UserIdKey := Str(user.id)];
      }
    }
  }

  /** Whatever the request, the action leaves a valid store valid (given fresh ids, as the database draws them). */
  lemma ActionKeepsStoreValid(req: Request, db: Db, hasher: Hasher, id: string, salt: string)
    requires Valid(db)
    ensures Valid(Action(req, db, hasher, id, salt).db)
  {
    var s := Read(req.form);
    if Acceptable(s) && s.loginType.value == "register" && FindUser(db.users, ByUsername(s.username.value)).None? {
      var user := User(id, s.username.value, hasher.hash(s.password.value, BcryptCost, salt));
      if CreateUser(db, user).Some? {
        CreateUserValid(db, user);
      }
    }
  }
}

=== FILE: new_joke_route.dfy ===
/**
 * The `/jokes/new` route (`app/routes/jokes/new.tsx`): its loader admits
 * only signed-in users, and its action requires a session user, checks the
 * joke form, validates the lengths of name and content, and only then
 * creates one joke owned by that user.
 */
module NewJokeRoute {
  import opened Options
  import opened Http
  import opened Store
  import opened Auth
  import FormUrlEncoded

  const MinNameLength := 2
  const MinContentLength := 10

  const FormNotSubmitted := "Form not submitted correctly."
  const NameTooShort := "That joke's name is too short"
  const ContentTooShort := "That joke's too short."

  datatype FieldErrors = FieldErrors(name: Option<string>, content: Option<string>)

  datatype Fields = Fields(name: string, content: string)

  /** The JSON body of a 400 response. */
  datatype ActionData = ActionData(formError: Option<string>, fieldErrors: Option<FieldErrors>, fields: Option<Fields>)

  /** The loader's `{}`. */
  datatype LoaderData = NoData

  /** The joke form as the action reads it. */
  datatype Submission = Submission(name: Option<string>, content: Option<string>)

  function Read(form: FormData): Submission {
    Submission(Field(form, "name"), Field(form, "content"))
  }

  predicate Complete(s: Submission) {
    Filled(s.name) && Filled(s.content)
  }

  predicate Acceptable(s: Submission) {
    Complete(s) && JsLength(s.name.value) >= MinNameLength && JsLength(s.content.value) >= MinContentLength
  }

  /** `validateJokeName`: an error exactly when the name is shorter than 2 UTF-16 code units. */
  function ValidateJokeName(name: string): (error: Option<string>)
    ensures error.Some? <==> JsLength(name) < 2
    ensures error.Some? ==> error.value == NameTooShort
  {
    if JsLength(name) < MinNameLength then Some(NameTooShort) else None
  }

  /** `validdateJokeContent`: an error exactly when the content is shorter than 10 UTF-16 code units. */
  function ValidateJokeContent(content: string): (error: Option<string>)
    ensures error.Some? <==> JsLength(content) < 10
    ensures error.Some? ==> error.value == ContentTooShort
  {
    if JsLength(content) < MinContentLength then Some(ContentTooShort) else None
  }

  /** A single emoji is a long enough name and five make a long enough joke, as JavaScript counts them. */
  lemma LengthsInCodeUnits()
    ensures ValidateJokeName("\U{1F600}").None? && ValidateJokeName("a").Some?
    ensures ValidateJokeContent("\U{1F600}\U{1F600}\U{1F600}\U{1F600}\U{1F600}").None?
    ensures ValidateJokeContent("abcdefghi").Some?
  {
  }

  /** `loader`: a 401 "Unauthorized" without a session user, the empty object otherwise. */
  function Loader(req: Request): (r: Response<LoaderData>)
    ensures GetUserId(req).None? <==> r == Plain(401, "Unauthorized")
    ensures GetUserId(req).Some? <==> r == Json(200, NoData)
  {
    if GetUserId(req).None? then Plain(401, "Unauthorized") else Json(200, NoData)
  }

  /** Where the action sends the author of joke `id`. */
  function JokePath(id: string): string {
    "/jokes/" + id
  }

  /**
   * The action. `id` is the identifier the database would draw for the new
   * joke.
   */
  function Action(req: Request, db: Db, id: string): (h: Handled<ActionData>)
    // no session user: the login redirect, whatever the form holds
    ensures GetUserId(req).None? ==>
              h == Handled(RequireUserId<ActionData>(req, None).response, db)
    // a missing or empty field: only a form error
    ensures GetUserId(req).Some? && !Complete(Read(req.form)) ==>
              h == Handled(BadRequest(ActionData(Some(FormNotSubmitted), None, None)), db)
    // a field too short: both field errors and the echoed fields, store untouched
    ensures GetUserId(req).Some? && Complete(Read(req.form)) && !Acceptable(Read(req.form)) ==>
              var s := Read(req.form);
              h == Handled(BadRequest(ActionData(None,
                     Some(FieldErrors(ValidateJokeName(s.name.value), ValidateJokeContent(s.content.value))),
                     Some(Fields(s.name.value, s.content.value)))), db)
    // otherwise exactly one joke owned by the session user, and a redirect to it
    ensures GetUserId(req).Some? && Acceptable(Read(req.form)) ==>
              var s := Read(req.form);
              var joke := Joke(id, s.name.value, s.content.value, GetUserId(req).value);
              match CreateJoke(db, joke)
              case None => h == Handled(ServerError, db)
              case Some(db') => h == Handled(Redirect(JokePath(id), Keep), db')
  {
    match RequireUserId<ActionData>(req, None)
    case Halt(response) => Handled(response, db)
    case Proceed(userId) =>
      var s := Read(req.form);
      if !Filled(s.name) || !Filled(s.content) then
        Handled(BadRequest(ActionData(Some(FormNotSubmitted), None, None)), db)
      else
        var name, content := s.name.value, s.content.value;
        var fieldErrors := FieldErrors(ValidateJokeName(name), ValidateJokeContent(content));
        var fields := Fields(name, content);
        if fieldErrors.name.Some? || fieldErrors.content.Some? then
          Handled(BadRequest(ActionData(None, Some(fieldErrors), Some(fields))), db)
        else
          match CreateJoke(db, Joke(id, name, content, userId))
          case None => Handled(ServerError, db)
          case Some(db') => Handled(Redirect(JokePath(id), Keep), db')
  }

  /**
   * Without a session user the action answers before reading the form: the
   * same login redirect back to the request's path for every form, and no
   * joke is created.
   */
  lemma AnonymousCannotPost(req: Request, db: Db, id: string, form: FormData)
    requires GetUserId(req).None?
    ensures Action(req, db, id).db == db
    ensures Action(req, db, id) == Action(req.(form := form), db, id)
    ensures var r := Action(req, db, id).response;
            && r.Redirect? && r.cookie.Keep?
            && |r.location| > |LoginPath| && r.location[..|LoginPath| + 1] == LoginPath + "?"
            && FormUrlEncoded.Parse(r.location[|LoginPath|..]) == [("redirectTo", req.path)]
  {
  }

  /**
   * The store changes only by one new joke with the submitted name and
   * content, owned by the session user, and the response then redirects to
   * that joke.
   */
  lemma OnlyOwnedJokeWrites(req: Request, db: Db, id: string)
    ensures var h := Action(req, db, id);
            var s := Read(req.form);
            h.db != db ==>
              && GetUserId(req).Some? && Acceptable(s)
              && h.db == db.(jokes := db.jokes + [Joke(id, s.name.value, s.content.value, GetUserId(req).value)])
              && h.response == Redirect(JokePath(id), Keep)
  {
  }

  /** Whatever the request, the action leaves a valid store valid. */
  lemma ActionKeepsStoreValid(req: Request, db: Db, id: string)
    requires Valid(db)
    ensures Valid(Action(req, db, id).db)
  {
    var s := Read(req.form);
    if GetUserId(req).Some? && Acceptable(s) {
      var joke := Joke(id, s.name.value, s.content.value, GetUserId(req).value);
      if CreateJoke(db, joke).Some? {
        CreateJokeValid(db, joke);
      }
    }
  }

  /** The loader refuses exactly the requests the action turns away to the login page. */
  lemma LoaderAgreesWithAction(req: Request)
    ensures StatusOf(Loader(req)) == 401 <==> RequireUserId<ActionData>(req, None).Halt?
  {
  }
}

=== FILE: options.dfy ===
/**
 * Optional values: what a lookup that may find nothing, a validator that
 * may report nothing, or a parse that may fail returns.
 */
module Options {

  datatype Option<+T> = None | Some(value: T) {
    /** The value, or `fallback` when there is none (JavaScript's `??`). */
    function GetOr(fallback: T): (r: T)
      ensures Some? ==> r == value
      ensures None? ==> r == fallback
    {
      if Some? then value else fallback
    }
  }
}

=== FILE: store.dfy ===
/**
 * The persistence collaborator (a Prisma client in the source), reduced to
 * the user and joke records the session helpers and the new-joke action
 * read and create. Identifiers the database would generate are supplied by
 * the caller; a create that would break a unique or foreign-key constraint
 * fails, as the database client throws in that case.
 */
module Store {
  import opened Options
  import opened Http

  datatype User = User(id: string, username: string, passwordHash: string)

  datatype Joke = Joke(id: string, name: string, content: string, jokesterId: string)

  datatype Db = Db(users: seq<User>, jokes: seq<Joke>)

  /** The outcome of a handler: its response and the store it leaves behind. */
  datatype Handled<D> = Handled(response: Response<D>, db: Db)

  /** A `where` clause on a unique column of the user table. */
  datatype Where = ByUsername(username: string) | ById(id: string)

  predicate Selects(w: Where, u: User) {
    match w
    case ByUsername(name) => u.username == name
    case ById(id) => u.id == id
  }

  /**
   * `db.user.findUnique({ where })` / `findFirst({ where })`: the first user
   * the clause selects, or nothing when it selects none.
   */
  function FindUser(users: seq<User>, w: Where): (r: Option<User>)
    ensures r.None? <==> forall u :: u in users ==> !Selects(w, u)
    ensures r.Some? ==> exists i :: 0 <= i < |users| && users[i] == r.value && Selects(w, r.value)
                                    && forall j :: 0 <= j < i ==> !Selects(w, users[j])
  {
    if |users| == 0 then None
    else if Selects(w, users[0]) then Some(users[0])
    else
      var r := FindUser(users[1..], w);
      if r.Some? then
        ghost var i :| 0 <= i < |users[1..]| && users[1..][i] == r.value && Selects(w, r.value)
                       && forall j :: 0 <= j < i ==> !Selects(w, users[1..][j]);
        assert users[i + 1] == r.value && forall j :: 0 <= j < i + 1 ==> !Selects(w, users[j]);
        r
      else
        assert forall u :: u in users ==> u == users[0] || u in users[1..];
        r
  }

  predicate JokeIdTaken(db: Db, id: string) {
    exists j :: j in db.jokes && j.id == id
  }

  /**
   * The store's invariant: usernames and user ids are unique, joke ids are
   * unique, and every joke's `jokesterId` names a stored user.
   */
  ghost predicate Valid(db: Db) {
    && (forall i, j :: 0 <= i < j < |db.users| ==>
          db.users[i].username != db.users[j].username && db.users[i].id != db.users[j].id)
    && (forall i, j :: 0 <= i < j < |db.jokes| ==> db.jokes[i].id != db.jokes[j].id)
    && (forall j :: j in db.jokes ==> FindUser(db.users, ById(j.jokesterId)).Some?)
  }

  /** In a valid store a unique-column lookup finds the one user it selects. */
  lemma FindUserUnique(db: Db, w: Where, u: User)
    requires Valid(db)
    requires u in db.users && Selects(w, u)
    ensures FindUser(db.users, w) == Some(u)
  {
    var r := FindUser(db.users, w);
    var i :| 0 <= i < |db.users| && db.users[i] == r.value && Selects(w, r.value)
             && forall j :: 0 <= j < i ==> !Selects(w, db.users[j]);
    var k :| 0 <= k < |db.users| && db.users[k] == u;
    forall j | 0 <= j < |db.users| && j != k
      ensures !Selects(w, db.users[j])
    {
      if j < k {
        assert db.users[j].username != u.username && db.users[j].id != u.id;
      } else {
        assert db.users[k].username != db.users[j].username && db.users[k].id != db.users[j].id;
      }
    }
  }

  /** `db.user.create`: fails when the username or the id is already taken. */
  function CreateUser(db: Db, user: User): (r: Option<Db>)
    ensures r.Some? <==> FindUser(db.users, ByUsername(user.username)).None? && FindUser(db.users, ById(user.id)).None?
    ensures r.Some? ==> r.value.users == db.users + [user] && r.value.jokes == db.jokes
  {
    if FindUser(db.users, ByUsername(user.username)).Some? || FindUser(db.users, ById(user.id)).Some? then None
    else Some(db.(users := db.users + [user]))
  }

  /** `db.joke.create`: fails when the id is taken or the jokester is not a stored user. */
  function CreateJoke(db: Db, joke: Joke): (r: Option<Db>)
    ensures r.Some? <==> !JokeIdTaken(db, joke.id) && FindUser(db.users, ById(joke.jokesterId)).Some?
    ensures r.Some? ==> r.value.jokes == db.jokes + [joke] && r.value.users == db.users
  {
    if JokeIdTaken(db, joke.id) || FindUser(db.users, ById(joke.jokesterId)).None? then None
    else Some(db.(jokes := db.jokes + [joke]))
  }

  lemma {:induction false} FindUserAppend(users: seq<User>, extra: User, w: Where)
    requires FindUser(users, w).Some?
    ensures FindUser(users + [extra], w) == FindUser(users, w)
  {
    if !Selects(w, users[0]) {
      assert (users + [extra])[1..] == users[1..] + [extra];
      FindUserAppend(users[1..], extra, w);
    }
  }

  lemma {:induction false} FindUserAppendNew(users: seq<User>, extra: User, w: Where)
    requires FindUser(users, w).None? && Selects(w, extra)
    ensures FindUser(users + [extra], w) == Some(extra)
  {
    if |users| > 0 {
      assert users[0] in users;
      assert (users + [extra])[1..] == users[1..] + [extra];
      FindUserAppendNew(users[1..], extra, w);
    }
  }

  /** A successful user create keeps the store valid. */
  lemma CreateUserValid(db: Db, user: User)
    requires Valid(db) && CreateUser(db, user).Some?
    ensures Valid(CreateUser(db, user).value)
  {
    var db' := CreateUser(db, user).value;
    forall j | j in db'.jokes
      ensures FindUser(db'.users, ById(j.jokesterId)).Some?
    {
      FindUserAppend(db.users, user, ById(j.jokesterId));
    }
    forall i | 0 <= i < |db.users|
      ensures db.users[i].username != user.username && db.users[i].id != user.id
    {
      assert db.users[i] in db.users;
    }
  }

  /** A successful joke create keeps the store valid. */
  lemma CreateJokeValid(db: Db, joke: Joke)
    requires Valid(db) && CreateJoke(db, joke).Some?
    ensures Valid(CreateJoke(db, joke).value)
  {
    var db' := CreateJoke(db, joke).value;
    forall i | 0 <= i < |db.jokes|
      ensures db.jokes[i].id != joke.id
    {
      assert db.jokes[i] in db.jokes;
    }
  }
}
